=== FILE: README.md ===
# Typed configuration registry — a Dafny model

The system is a header-only C++ registry of configuration parameters
(`cfg_template.hpp`). A program declares an enumeration of parameters and,
for each one, which kind of value cell holds it, its key (the name under
which it can be overridden), its hard-coded default and a help text. At
construction the registry builds one cell per parameter. It takes the
default, or the entry for the key in an override map: a string override is
used verbatim, a boolean one goes through `strToBool`, and an integer one
goes through `std::stoi` and is converted to the cell's integer type.

A cell is one of four variants: read-only integer, updatable integer,
read-only boolean and read-only string. Every cell shows its value as a
string, as a 64-bit integer and as a boolean. `set` on a read-only cell
throws a `std::runtime_error` naming the key. On the updatable integer
cell, `set` parses the text with `std::stoi` and stores the result. The
registry's `as_<T>` reads a parameter as `std::string`, `bool` or any
integer type; integer types use `static_cast`, which keeps the low-order
bits. Its `set` hands the new text to the parameter's cell.

The model has these modules:

- `Narrowing` (narrowing.dfy): the fixed-width integer types and the
  integral conversion of section 7.3.9 [conv.integral] of ISO/IEC
  14882:2020. The result is the unique value of the destination type
  congruent to the source modulo 2^N.
- `StrConv` (strconv.dfy):
  - `strToBool`;
  - the decimal rendering of `std::to_string`;
  - `std::stoi`, which is `strtol` with base 10 (section 7.22.1.4 of
    ISO/IEC 9899:2011) plus the check that the value fits a 32-bit `int`.
- `ConfigValue` (config_value.dfy): the four cell variants as one
  datatype `Cell`, with their projections and `set`. Exceptions are
  modelled as `CfgError` values in a `Result`.
- `Factory` (factory.dfy): `CVFactory`'s three `resolveVal` overloads and
  the four `Make_*` builders. `Decl` is one entry of a specialisation's
  member-initialiser list.
- `Registry` (registry.dfy): `ConfigTemplate<TConfigEnum>` as a class
  holding `parms: map<K, Cell>`, with `as_` (`As`), `convertToType` and
  `set` (`Set`, a method that `modifies` the registry). `BuildCells` is the
  construction from the declarations and the overrides.
- `Examples` (examples.dfy): the two registries of `example.cpp` and the
  values its `main` reads, stated as the postconditions of methods.

## Model

| member | source | states |
|---|---|---|
| StrConv.Upper | cfg_template.hpp:9-10 | The upper-cased copy has the same length as the input, and each character is the ASCII upper case of the character at the same position. |
| StrConv.StrToBool | cfg_template.hpp:7-16 | `strToBool` upper-cases its text and compares it with "0", "FALSE" and "OFF". It has no contract of its own; what it means is stated by `StrToBoolFalseIff`. |
| StrConv.StrToBoolFalseIff | cfg_template.hpp:7-16 | `strToBool(s)` is false exactly when `s` is "0", or "false" or "off" with each letter in either case. Both directions are proved against an independent case-insensitive spelling predicate, so "", "yes" and "true" read as true. |
| StrConv.SkipSpaces | cfg_template.hpp:101 | `std::stoi` starts after the leading C white space: the result is a suffix of the input and does not start with white space. That the dropped prefix is all white space is stated by `SkipSpacesDropsSpaces`. |
| StrConv.SkipSpacesDropsSpaces | cfg_template.hpp:101 | The text `SkipSpaces` drops is entirely white space, and the input is that prefix followed by the kept text. Together with `SkipSpaces`'s own contract, it drops exactly the leading white space. |
| StrConv.LeadingSpaces | cfg_template.hpp:101 | Every character before the point where `std::stoi` starts reading is white space. |
| StrConv.SkipSpacesPrefix | cfg_template.hpp:101 | White space in front of a text that does not start with white space is skipped entirely and nothing more. |
| StrConv.DigitPrefix | cfg_template.hpp:101 | `std::stoi` converts the longest run of digits: the result is a prefix of the input, all digits, and not followed by a digit. |
| StrConv.DigitPrefixOf | cfg_template.hpp:101 | The digit run read in front of a tail that does not start with a digit is exactly that run. |
| StrConv.Stoi | cfg_template.hpp:101 | Every value `std::stoi` returns fits a 32-bit `int`. |
| StrConv.ReadInt | cfg_template.hpp:101 | Reading from the first non-space character: every value fits a 32-bit `int`. Its result on a sign, digits and a tail is stated by `ReadIntOfParts`. |
| StrConv.ReadIntOfParts | cfg_template.hpp:101 | For an optional sign, a non-empty run of digits and a tail that does not start with a digit, the read gives the signed value of the digits, or `OutOfRange` when it does not fit an `int`. |
| StrConv.StoiOfParts | cfg_template.hpp:101 | For white space, an optional sign, a non-empty run of digits and a tail that does not start with a digit, `std::stoi` gives the signed value of the digits, or `OutOfRange` when it does not fit an `int`. The tail is ignored. |
| StrConv.StoiOfLeadingInt | cfg_template.hpp:101 | A text that starts with white space, an optional sign and at least one digit never gives `InvalidArgument`. |
| StrConv.SignedDigitsOfReadInt | cfg_template.hpp:101 | When the read does not give `InvalidArgument`, the text is an optional sign, a non-empty run of digits and a tail that does not start with a digit. |
| StrConv.LeadingIntOfStoi | cfg_template.hpp:101 | When `std::stoi` does not give `InvalidArgument`, the text is white space, an optional sign, a non-empty run of digits and a tail that does not continue them. |
| StrConv.StoiInvalidIff | cfg_template.hpp:101 | `std::stoi` gives `InvalidArgument` exactly when the text does not start with white space, an optional sign and a digit. Both directions are proved. |
| StrConv.StoiNoDigits | cfg_template.hpp:208 | A text without any digit fails with `InvalidArgument`. |
| StrConv.NatDigits | cfg_template.hpp:77 | The digits of a natural number: a non-empty run of decimal digits, at least two of them from 10 on. It starts with '0' exactly for 0, which it writes as "0", so there is no leading zero. That they denote the number is stated by `DigitsValueOfNatDigits`. |
| StrConv.Decimal | cfg_template.hpp:77 | `std::to_string` of an integer: a non-empty text that starts with '-' exactly for a negative value, and whose other characters are all digits, with no leading zero (0 itself is "0"). The value its digits denote is stated by `DecimalValue`, for every integer, and that `std::stoi` reads it back is stated by `StoiOfDecimal`. |
| StrConv.DecimalValue | cfg_template.hpp:77 | For every integer, also those wider than `int` that `int64_t` and `uint64_t` cells render, the digits after the optional '-' denote the integer's magnitude. |
| StrConv.DigitsValueOfNatDigits | cfg_template.hpp:77 | The digits `std::to_string` writes for a natural number denote that number. |
| StrConv.StoiOfDecimal | cfg_template.hpp:97-101 | `std::stoi` reads back the rendering of any integer, also behind white space and in front of a non-digit tail. It gives `OutOfRange` exactly when the integer is outside the `int` range. |
| StrConv.StoiOfRendering | cfg_template.hpp:97-101 | `std::stoi(std::to_string(n)) == n` for every `n` of type `int`. |
| Narrowing.HalfModulus | cfg_template.hpp:289-292 | The signed range boundary 2^(N-1) is half the modulus 2^N. |
| Narrowing.Narrow | cfg_template.hpp:289-292 | `static_cast` to an integer type gives a value of that type that is congruent to the source modulo 2^N, and leaves a source already in range unchanged. |
| Narrowing.NarrowUnique | cfg_template.hpp:289-292 | No other value of the type is congruent to the source, so the contract of `Narrow` is the whole definition in [conv.integral]. |
| Narrowing.MultipleNarrowsToZero | cfg_template.hpp:289-292 | A non-negative multiple of 2^N converts to 0 in every type of width N. For example, 4096000 = 16000 · 256 reads as 0 in `uint8_t`. |
| Narrowing.NarrowRoundTrip | cfg_template.hpp:289-292 | Converting to a type of the same width and back to a type that holds the value restores it, as with `int64_t` and `uint64_t`. |
| ConfigValue.CfgError.Message | cfg_template.hpp:57-59 | The read-only exception's text ends with the cell's key. |
| ConfigValue.ParseInt | cfg_template.hpp:139 | `std::stoi`'s result, with its failure raised as a `ParseError` that carries the same cause. |
| ConfigValue.Cell.AsStr | cfg_template.hpp:77-138 | `asStr` of the four variants: the rendering of an integer, "true" or "false", or the text itself. It has no contract of its own; `AsBoolAgreesWithAsStr` and `AsIntAgreesWithAsStr` relate it to the other projections. |
| ConfigValue.Cell.AsBool | cfg_template.hpp:79-140 | `asBool` of the four variants. It has no contract of its own; `AsBoolAgreesWithAsStr` proves it equals `strToBool(asStr())` in every variant. |
| ConfigValue.Cell.AsInt | cfg_template.hpp:78-139 | `asInt` always fits `int64_t`. An integer cell gives its value, and for `uint64_t` the value converted to `int64_t` (congruent modulo 2^64). A boolean cell gives 1 or 0 according to the flag. A string cell gives `std::stoi` of its text and fails exactly when that fails. |
| ConfigValue.Cell.Set | cfg_template.hpp:55-102 | Every read-only variant fails with `ReadOnlyError(key)`. The updatable cell succeeds exactly when `std::stoi(v)` succeeds, and otherwise fails with its `ParseError`. On success the cell keeps variant, key, help and integer type, and holds a value of its type congruent to `std::stoi(v)`. |
| ConfigValue.StrToBoolOfDecimal | cfg_template.hpp:77-79 | The rendering of an integer reads as false under `strToBool` exactly when the integer is 0. |
| ConfigValue.AsBoolAgreesWithAsStr | cfg_template.hpp:77-140 | In all four variants, `asBool` equals `strToBool(asStr())`. |
| ConfigValue.AsIntAgreesWithAsStr | cfg_template.hpp:77-140 | For integer cells whose value fits an `int`, and for string cells, `asInt` equals `std::stoi(asStr())`. This includes a string cell's failure. |
| ConfigValue.SetThenRead | cfg_template.hpp:97-102 | After `set(v)` with `std::stoi(v) == x`, the cell reads as `x` converted to its type (`asInt` of a `uint64_t` cell gives `x` itself). `asStr` renders that value, and `asBool` is true exactly when that value is non-zero. |
| ConfigValue.SetDecimalRoundTrip | cfg_template.hpp:97-102 | Setting an updatable cell to the rendering of a value of its type and of `int` stores exactly that value, and `asStr` shows the same text again. |
| Factory.ResolveInt | cfg_template.hpp:201-210 | Without an override the result is the default. With one, it succeeds exactly when `std::stoi` does, carries its failure otherwise, and is a value of the type congruent to the parsed number. |
| Factory.ResolveStr | cfg_template.hpp:214-222 | The override text verbatim, or the default when there is none. |
| Factory.ResolveBool | cfg_template.hpp:226-235 | `strToBool` of the override, or the default when there is none. |
| Factory.ResolveIntOfDecimal | cfg_template.hpp:201-210 | An override that renders a value of the type and of `int` resolves to exactly that value. |
| Factory.ResolveBoolOverride | cfg_template.hpp:226-235 | A boolean override resolves to false exactly when it is "0", "false" or "off" in any case. |
| Factory.Decl.Default | cfg_template.hpp:72-136 | The default cell of a declaration is valid and carries its key and help text. |
| Factory.MakeIntReadOnly | cfg_template.hpp:164-171 | Builds a read-only integer cell of the declared type with the given key and help text. It fails exactly when `resolveVal` does, with its error. On success it holds the value `resolveVal` gives. |
| Factory.MakeIntUpdatable | cfg_template.hpp:181-188 | Builds an updatable integer cell of the declared type with the given key and help text. It fails exactly when `resolveVal` does, with its error. On success it holds the value `resolveVal` gives. |
| Factory.MakeStrReadOnly | cfg_template.hpp:173-179 | Builds a string cell whose text is the override or the default. |
| Factory.MakeBoolReadOnly | cfg_template.hpp:190-196 | Builds a boolean cell whose flag is `strToBool` of the override, or the default. |
| Factory.Make | cfg_template.hpp:164-196 | Without an override the cell is exactly the declared default. A failure happens only for an integer declaration whose override `std::stoi` rejects, and carries that failure. Conversely, an integer declaration with an override builds exactly when `std::stoi` accepts the override. Key and help are kept. |
| Factory.MakeWithOverride | cfg_template.hpp:164-196 | With an override, a string cell holds the text, a boolean cell `strToBool` of it, and an integer cell of the declared variant and type holds the parsed value modulo 2^N. |
| Registry.ConvertToType | cfg_template.hpp:283-297 | String and bool targets give `asStr` and `asBool`. An integer target fails exactly when `asInt` does, with its error; otherwise it gives a value of the target type congruent to `asInt` (no range check). |
| Registry.ConvertToIntType | cfg_template.hpp:289-292 | The integer read is that unique congruent value, and is `asInt` itself when it fits the target. |
| Registry.BuildCells | example.cpp:23-31 | Every cell of a successfully built registry is valid. |
| Registry.BuildCellsOutcome | example.cpp:23-31 | Construction succeeds exactly when every declared cell can be made. It then has a cell for every declared parameter and no other, and otherwise fails with the error of the first declaration whose cell cannot be made: that one fails with it, and every earlier one can be made. |
| Registry.BuildCellsFailure | example.cpp:23-31 | A failed construction carries the error of the first failing declaration, since the member-initialiser list is evaluated in order. |
| Registry.BuildCellsSucceeds | example.cpp:23-31 | When every declared cell can be made, the construction succeeds. It is derived from `BuildCellsOutcome`. |
| Registry.BuildCellsLookup | example.cpp:23-31 | A parameter's cell is the one its first declaration makes, as `std::map`'s initializer-list constructor keeps the first entry for a key. |
| Registry.DefaultsWithoutOverrides | cfg_template.hpp:201-235 | With no overrides, construction cannot fail and every parameter holds its declared default. |
| Registry.OverrideWins | cfg_template.hpp:201-235 | With an override for its key, a parameter starts from the override: verbatim, through `strToBool`, or, for an integer parameter, `std::stoi` of it converted to the declared type, held in the declared cell variant. It does not start from the default. |
| Registry.ConfigTemplate.constructor | cfg_template.hpp:260 | The registry holds exactly the given cells. |
| Registry.ConfigTemplate.Create | cfg_template.hpp:253-260 | A fresh registry holding exactly the built cells, or the construction's failure. |
| Registry.ConfigTemplate.As | cfg_template.hpp:262-271 | `as_<T>(p)` is the string or boolean projection of `p`'s cell. For an integer `T` it fails exactly when `asInt` does, with `asInt`'s error, and is otherwise a value of `T` congruent to `asInt`. |
| Registry.ConfigTemplate.Set | cfg_template.hpp:273-280 | A read-only parameter fails with its key. The updatable one succeeds exactly when `std::stoi` does. A failure changes nothing and carries the error of the cell's own `set`. A success replaces only `p`'s cell, by the cell's own `set`. Keys and help texts never change, and every other parameter is untouched. |
| Examples.StoiOf512 | example.cpp:63 | The override text "512" parses to 512. |
| Examples.DatabaseBuilds | example.cpp:23-31 | The database registry builds under overrides of the example's shape. |
| Examples.ClusterBuilds | example.cpp:49-57 | The cluster registry builds under overrides of the example's shape. |
| Examples.DatabaseMaxRows | example.cpp:63-66 | MAX_ROWS_PER_ROWGROUP holds its override 512, not its default 10000. |
| Examples.DatabaseCacheMem | example.cpp:29 | CACHE_MEM_SZ is the updatable `int64_t` cell holding 0. |
| Examples.ClusterInsertFlush | example.cpp:70-71 | INSERT_FLUSH holds false, from its override "false", not its default true. |
| Examples.DatabaseCells | example.cpp:23-31 | Under overrides of the example's shape, the database registry starts with MAX_ROWS_PER_ROWGROUP = 512, STRIDE_SIZE = 512, SHARED_FS = "alluxio" and CACHE_MEM_SZ = 0, each in its declared cell variant and type. |
| Examples.ClusterCells | example.cpp:49-57 | Under overrides of the example's shape, the cluster registry starts with NUM_NODES = 3, ZK_TIMEOUT = 10000, QUORUM_WRITE = "true" and INSERT_FLUSH = false. |
| Examples.DatabaseDefault | example.cpp:23-31 | The database parameters without an override hold their declared defaults. |
| Examples.ClusterDefault | example.cpp:49-57 | The cluster parameters without an override hold their declared defaults. |
| Examples.DatabaseReads | example.cpp:63-84 | MAX_ROWS_PER_ROWGROUP and STRIDE_SIZE read as "512". SHARED_FS reads as "alluxio". STRIDE_SIZE reads as 512 in `int` and `int64_t`. |
| Examples.CacheUpdate | example.cpp:92-103 | Setting CACHE_MEM_SZ to the rendering of 4096 * 1000 succeeds. The cache then reads 4096000 as `uint64_t` and 0 as `uint8_t`. |
| Examples.DatabaseExample | example.cpp:61-103 | The database half of `main`: every value it reads, and its one update. |
| Examples.ClusterExample | example.cpp:70-100 | The cluster half of `main`: NUM_NODES reads "3", and 3 as `uint8_t` and `uint64_t`. ZK_TIMEOUT reads "10000". QUORUM_WRITE's text "true" reads as true, and INSERT_FLUSH reads false. |
| Examples.DatabaseExampleOverrides | example.cpp:63 | The database override map of `main` has the shape the database lemmas assume. |
| Examples.ClusterExampleOverrides | example.cpp:70 | The cluster override map of `main` has the shape the cluster lemmas assume. |

## Left out

- `std::atomic` in `IntUpdatableCV`: the model is sequential, and the atomic store and load are a plain field update and read.
- `shared_ptr` ownership and virtual dispatch: cells are values of one datatype with four variants, owned by the registry's map. `IntUpdatableCV::set` overwriting `mVal` in place is modelled by `Cell.Set` computing the new cell, which `ConfigTemplate.Set` stores back in place of the old one. Aliasing of a cell through several `shared_ptr`s is not modelled; the registry never shares them.
- Looking up a parameter the map does not hold: the source dereferences a null pointer. `As` and `Set` require the parameter to be in the map.
- Locale-dependent `::toupper`: only the ASCII letters are upper-cased, as in the "C" locale for these texts.
- The message texts of `std::invalid_argument` and `std::out_of_range`: only the kind of failure is kept (`ParseFailure`).
- `as_<T>` for types other than `std::string`, `bool` and the eight fixed-width integer types, such as floating point or `char`, which are not used by the system.
- Integer overrides and `set` texts outside the 32-bit `int` range for 64-bit cells: `std::stoi` rejects them with `OutOfRange`, and the model promises nothing wider.
- The template specialisations' constructors: a specialisation is given as a list of declarations (`Decl`) and built by `BuildCells`. The order of evaluation, the first failing builder and the first entry for a duplicated parameter follow the member-initialiser list and `std::map`'s constructor.
- The console output of `example.cpp`'s `main`: the methods `DatabaseExample` and `ClusterExample` return the values it prints. Their overrides are described by the keys they hold and by what the text parses to. `DatabaseExampleOverrides` and `ClusterExampleOverrides` show that the literal maps of `main` fit those descriptions.

=== FILE: config_value.dfy ===
/**
  The configuration values: one cell per parameter, in one of the four
  variants of the source (read-only integer, updatable integer, read-only
  boolean, read-only string). A cell keeps its key, its help text and one
  canonical value, and shows that value as a string, as a 64-bit integer
  and as a boolean.
*/
module ConfigValue {
  import opened Wrappers
  import opened Narrowing
  import opened StrConv

  /** The exceptions the registry raises. */
  datatype CfgError =
    | ReadOnlyError(key: string)          // `std::runtime_error` from a set on a read-only value
    | ParseError(failure: ParseFailure)   // `std::invalid_argument` or `std::out_of_range` from `std::stoi`
  {
    /** The text of the read-only exception. */
    function Message(): (m: string)
      requires ReadOnlyError?
      ensures |key| <= |m| && m[|m| - |key|..] == key
    {
      ReadOnlyPrefix + key
    }
  }

  const ReadOnlyPrefix := "Read-only config value.  Set is not supported: "

  /** `std::stoi` with its failure raised as a `CfgError`. */
  function ParseInt(s: string): (r: Result<int, CfgError>)
    ensures r.Success? <==> Stoi(s).Success?
    ensures r.Success? ==> r.value == Stoi(s).value
    ensures r.Failure? ==> r.error == ParseError(Stoi(s).error)
  {
    match Stoi(s)
    case Success(v) => Success(v)
    case Failure(f) => Failure(ParseError(f))
  }

  /** The text `BoolReadOnlyCV::asStr` gives. */
  function BoolText(b: bool): string
  {
    if b then "true" else "false"
  }

  /**
    One configuration value. The integer variants carry the integer type
    `kind` they were instantiated with and hold a value of that type.
  */
  datatype Cell =
    | IntReadOnly(key: string, help: string, kind: IntKind, n: int)
    | IntUpdatable(key: string, help: string, kind: IntKind, n: int)
    | BoolReadOnly(key: string, help: string, b: bool)
    | StrReadOnly(key: string, help: string, s: string)
  {
    /** An integer cell holds a value of its integer type. */
    predicate Valid()
    {
      (IntReadOnly? || IntUpdatable?) ==> InRange(kind, n)
    }

    /** Every variant but the updatable integer refuses `set`. */
    predicate ReadOnly()
    {
      !IntUpdatable?
    }

    /** `asStr`: the decimal rendering, "true"/"false", or the text itself. */
    function AsStr(): string
    {
      match this
      case IntReadOnly(_, _, _, n) => Decimal(n)
      case IntUpdatable(_, _, _, n) => Decimal(n)
      case BoolReadOnly(_, _, b) => BoolText(b)
      case StrReadOnly(_, _, s) => s
    }

    /**
      `asInt`: the value converted to `int64_t`; 0 or 1 for a boolean;
      `std::stoi` of the text for a string, which may fail.
    */
    function AsInt(): (r: Result<int, CfgError>)
      requires Valid()
      ensures r.Success? ==> InRange(Int64, r.value)
      ensures (IntReadOnly? || IntUpdatable?) && kind != UInt64 ==> r == Success(n)
      ensures BoolReadOnly? ==> r.Success? && (r.value == 0 || r.value == 1) && (r.value == 1 <==> b)
      ensures (IntReadOnly? || IntUpdatable?) ==> r.Success? && Congruent(r.value, n, Modulus(W64))
      ensures StrReadOnly? ==> (r.Success? <==> Stoi(s).Success?) && (r.Success? ==> r.value == Stoi(s).value)
    {
      match this
      case IntReadOnly(_, _, _, n) => Success(Narrow(n, Int64))
      case IntUpdatable(_, _, _, n) => Success(Narrow(n, Int64))
      case BoolReadOnly(_, _, b) => Success(if b then 1 else 0)
      case StrReadOnly(_, _, s) => ParseInt(s)
    }

    /** `asBool`: non-zero for an integer, the flag itself, or `strToBool` of the text. */
    function AsBool(): bool
    {
      match this
      case IntReadOnly(_, _, _, n) => n != 0
      case IntUpdatable(_, _, _, n) => n != 0
      case BoolReadOnly(_, _, b) => b
      case StrReadOnly(_, _, s) => StrToBool(s)
    }

    /**
      `set(v)`: a read-only cell throws, naming its key; the updatable
      integer parses `v` with `std::stoi` and stores the result converted
      to its integer type. The new cell keeps the key, help text, variant
      and integer type.
    */
    function Set(v: string): (r: Result<Cell, CfgError>)
      requires Valid()
      ensures ReadOnly() ==> r == Failure(ReadOnlyError(key))
      ensures IntUpdatable? ==> (r.Success? <==> Stoi(v).Success?)
      ensures IntUpdatable? && r.Failure? ==> r.error == ParseError(Stoi(v).error)
      ensures r.Success? ==>
                r.value.Valid() && r.value.IntUpdatable? && r.value.key == key
                && r.value.help == help && r.value.kind == kind
      ensures r.Success? ==> Congruent(r.value.n, Stoi(v).value, Modulus(kind.width))
    {
      match this
      case IntUpdatable(key, help, kind, _) =>
        var x :- ParseInt(v);
        Success(IntUpdatable(key, help, kind, Narrow(x, kind)))
      case _ => Failure(ReadOnlyError(key))
    }
  }

  /** The decimal rendering of an integer never reads as "FALSE" or "OFF", and reads as "0" only for zero. */
  lemma StrToBoolOfDecimal(n: int)
    ensures StrToBool(Decimal(n)) == (n != 0)
  {
    var d := Decimal(n);
    var m := if n < 0 then -n else n;
    assert d[0] == '-' || IsDigit(d[0]);
    assert Upper(d)[0] == d[0];
    if n == 0 {
      assert d == "0";
    } else if n < 0 {
      assert |d| >= 2;
    } else if n >= 10 {
      assert |d| >= 2;
    } else {
      assert d == [DigitChar(n)];
      assert Upper(d) == d;
    }
  }

  /**
    Across all four variants the boolean projection is `strToBool` of the
    string projection: "true"/"false" for a flag, the rendering of an
    integer (false only for 0), or the stored text itself.
  */
  lemma AsBoolAgreesWithAsStr(c: Cell)
    ensures c.AsBool() == StrToBool(c.AsStr())
  {
    match c
    case IntReadOnly(_, _, _, n) => StrToBoolOfDecimal(n);
    case IntUpdatable(_, _, _, n) => StrToBoolOfDecimal(n);
    case BoolReadOnly(_, _, b) =>
      if b {
        assert Upper("true") == "TRUE";
      } else {
        assert Upper("false") == "FALSE";
      }
    case StrReadOnly(_, _, _) =>
  }

  /**
    For every cell except a boolean one, whose text "true"/"false" is not
    a number, `std::stoi` of the string projection gives the integer
    projection whenever the value fits an `int`.
  */
  lemma AsIntAgreesWithAsStr(c: Cell)
    requires c.Valid() && !c.BoolReadOnly?
    requires (c.IntReadOnly? || c.IntUpdatable?) ==> InRange(Int32, c.n)
    ensures c.AsInt() == ParseInt(c.AsStr())
  {
    if c.IntReadOnly? || c.IntUpdatable? {
      StoiOfRendering(c.n);
      NarrowRoundTrip(c.n, Int64, Int64);
    }
  }

  /**
    After a successful `set(v)` on an updatable cell the projections show
    `std::stoi(v)` converted to the cell's integer type; read through
    `asInt` a `uint64_t` cell gives back `std::stoi(v)` itself.
  */
  lemma SetThenRead(c: Cell, v: string, x: int)
    requires c.Valid() && c.IntUpdatable?
    requires Stoi(v) == Success(x)
    ensures c.Set(v).Success?
    ensures var c' := c.Set(v).value;
      && c'.AsInt() == Success(if c.kind == UInt64 then x else Narrow(x, c.kind))
      && c'.AsStr() == Decimal(Narrow(x, c.kind))
      && c'.AsBool() == (Narrow(x, c.kind) != 0)
  {
    if c.kind == UInt64 {
      NarrowRoundTrip(x, UInt64, Int64);
    }
  }

  /**
    Setting an updatable cell to the rendering of a value of its type
    (within the range of `int`) stores exactly that value.
  */
  lemma {:induction false} SetDecimalRoundTrip(c: Cell, x: int)
    requires c.Valid() && c.IntUpdatable?
    requires InRange(Int32, x) && InRange(c.kind, x)
    ensures c.Set(Decimal(x)) == Success(IntUpdatable(c.key, c.help, c.kind, x))
    ensures c.Set(Decimal(x)).value.AsStr() == Decimal(x)
  {
    StoiOfRendering(x);
    assert ParseInt(Decimal(x)) == Success(x);
    assert Narrow(x, c.kind) == x;
  }
}

=== FILE: examples.dfy ===
/**
  The two registries the example program declares (`DatabaseConfigParm`
  and `ClusterConfigParm`) and the run of its `main`, with the values it
  reads proved instead of printed.
*/
module Examples {
  import opened Wrappers
  import opened Narrowing
  import opened StrConv
  import opened ConfigValue
  import opened Factory
  import opened Registry

  datatype DatabaseConfigParm = MaxRowsPerRowgroup | StrideSize | SharedFsType | CacheMemSz

  function DatabaseDecls(): seq<(DatabaseConfigParm, Decl)>
  {
    [ (MaxRowsPerRowgroup, IntReadOnlyDecl("MAX_ROWS_PER_ROWGROUP", Int32, 10000, "Maximum number of rows per row group.")),
      (StrideSize, IntReadOnlyDecl("STRIDE_SIZE", Int16, 512, "Maximum stride size of a table")),
      (SharedFsType, StrReadOnlyDecl("SHARED_FS", "alluxio", "The file system type")),
      (CacheMemSz, IntUpdatableDecl("CACHE_MEM_SZ", Int64, 0, "Memory size of cache")) ]
  }

  datatype ClusterConfigParm = NumNodes | ZkTimeout | QuorumWrite | InsertFlush

  function ClusterDecls(): seq<(ClusterConfigParm, Decl)>
  {
    [ (NumNodes, IntReadOnlyDecl("NUM_NODES", Int8, 3, "Number of nodes in the cluster.")),
      (ZkTimeout, IntReadOnlyDecl("ZK_TIMEOUT", Int64, 10000, "Zookeeper timeout in milliseconds")),
      (QuorumWrite, StrReadOnlyDecl("QUORUM_WRITE", "true", "Is quorum write set")),
      (InsertFlush, BoolReadOnlyDecl("INSERT_FLUSH", true, "Does each insert flush?")) ]
  }

  /** The override text "512" is the rendering of 512 and parses back to it. */
  lemma StoiOf512()
    ensures Stoi("512") == Success(512)
  {
    assert "512" == Decimal(512);
    StoiOfRendering(512);
  }

  /**
    The overrides of the example run, described by the keys they hold: the
    database one overrides MAX_ROWS_PER_ROWGROUP with a text that parses to
    512 (such as "512", see `StoiOf512`), the cluster one INSERT_FLUSH with
    "false".
  */
  predicate DatabaseOverrides(o: Overrides)
  {
    && "MAX_ROWS_PER_ROWGROUP" in o && Stoi(o["MAX_ROWS_PER_ROWGROUP"]) == Success(512)
    && "STRIDE_SIZE" !in o && "SHARED_FS" !in o && "CACHE_MEM_SZ" !in o
  }

  predicate ClusterOverrides(o: Overrides)
  {
    && "INSERT_FLUSH" in o && o["INSERT_FLUSH"] == "false"
    && "NUM_NODES" !in o && "ZK_TIMEOUT" !in o && "QUORUM_WRITE" !in o
  }

  /** MAX_ROWS_PER_ROWGROUP's cell is made from its override. */
  lemma MaxRowsMade(o: Overrides)
    requires DatabaseOverrides(o)
    ensures Make(o, DatabaseDecls()[0].1) == Success(IntReadOnly("MAX_ROWS_PER_ROWGROUP", "Maximum number of rows per row group.", Int32, 512))
  {
  }

  /** Every database parameter's cell can be made. */
  lemma DatabaseMade(o: Overrides, i: nat)
    requires DatabaseOverrides(o) && i < 4
    ensures Make(o, DatabaseDecls()[i].1).Success?
  {
    var d := DatabaseDecls()[i].1;
    if i == 0 {
      MaxRowsMade(o);
    } else {
      assert d.key in {"STRIDE_SIZE", "SHARED_FS", "CACHE_MEM_SZ"};
      assert d.key !in o;
    }
  }

  lemma DatabaseAllMade(o: Overrides)
    requires DatabaseOverrides(o)
    ensures forall i :: 0 <= i < |DatabaseDecls()| ==> Make(o, DatabaseDecls()[i].1).Success?
  {
    forall i | 0 <= i < |DatabaseDecls()|
      ensures Make(o, DatabaseDecls()[i].1).Success?
    {
      DatabaseMade(o, i);
    }
  }

  /** Every default the database template declares fits its type. */
  lemma DatabaseDeclsValid()
    ensures AllValid(DatabaseDecls())
  {
  }

  /** The database registry builds: its one override parses. */
  lemma DatabaseBuilds(o: Overrides)
    requires DatabaseOverrides(o)
    ensures BuildCells(DatabaseDecls(), o).Success?
  {
    DatabaseDeclsValid();
    DatabaseAllMade(o);
    BuildCellsSucceeds(DatabaseDecls(), o);
  }

  /** The cluster registry builds: none of its overrides is an integer's. */
  lemma ClusterBuilds(o: Overrides)
    requires ClusterOverrides(o)
    ensures BuildCells(ClusterDecls(), o).Success?
  {
    ClusterDeclsValid();
    ClusterAllMade(o);
    BuildCellsSucceeds(ClusterDecls(), o);
  }

  lemma ClusterAllMade(o: Overrides)
    requires ClusterOverrides(o)
    ensures forall i :: 0 <= i < |ClusterDecls()| ==> Make(o, ClusterDecls()[i].1).Success?
  {
    forall i | 0 <= i < |ClusterDecls()|
      ensures Make(o, ClusterDecls()[i].1).Success?
    {
      if i < 3 {
        assert ClusterDecls()[i].1.key !in o;
      }
    }
  }

  /** Every default the cluster template declares fits its type. */
  lemma ClusterDeclsValid()
    ensures AllValid(ClusterDecls())
  {
  }

  /** MAX_ROWS_PER_ROWGROUP starts from its override 512, not from 10000. */
  lemma DatabaseMaxRows(o: Overrides)
    requires DatabaseOverrides(o)
    ensures BuildCells(DatabaseDecls(), o).Success?
    ensures var m := BuildCells(DatabaseDecls(), o).value;
      MaxRowsPerRowgroup in m && m[MaxRowsPerRowgroup] == IntReadOnly("MAX_ROWS_PER_ROWGROUP", "Maximum number of rows per row group.", Int32, 512)
  {
    DatabaseBuilds(o);
    MaxRowsMade(o);
    BuildCellsLookup(DatabaseDecls(), o, 0);
  }

  /** CACHE_MEM_SZ starts from its default 0 and is the updatable one. */
  lemma DatabaseCacheMem(o: Overrides)
    requires DatabaseOverrides(o)
    ensures BuildCells(DatabaseDecls(), o).Success?
    ensures var m := BuildCells(DatabaseDecls(), o).value;
      CacheMemSz in m && m[CacheMemSz] == IntUpdatable("CACHE_MEM_SZ", "Memory size of cache", Int64, 0)
  {
    DatabaseBuilds(o);
    BuildCellsLookup(DatabaseDecls(), o, 3);
  }

  /** INSERT_FLUSH starts from its override "false", not from true. */
  lemma ClusterInsertFlush(o: Overrides)
    requires ClusterOverrides(o)
    ensures BuildCells(ClusterDecls(), o).Success?
    ensures var m := BuildCells(ClusterDecls(), o).value;
      InsertFlush in m && m[InsertFlush] == BoolReadOnly("INSERT_FLUSH", "Does each insert flush?", false)
  {
    ClusterBuilds(o);
    assert Upper("false") == "FALSE";
    BuildCellsLookup(ClusterDecls(), o, 3);
  }

  /** The database parameters without an override keep their defaults. */
  lemma DatabaseDefault(o: Overrides, i: nat)
    requires DatabaseOverrides(o) && 1 <= i < 4
    ensures BuildCells(DatabaseDecls(), o).Success?
    ensures var m := BuildCells(DatabaseDecls(), o).value;
      DatabaseDecls()[i].0 in m && m[DatabaseDecls()[i].0] == DatabaseDecls()[i].1.Default()
  {
    DatabaseDeclsValid();
    DatabaseBuilds(o);
    if i == 1 {
      BuildCellsLookup(DatabaseDecls(), o, 1);
    } else if i == 2 {
      BuildCellsLookup(DatabaseDecls(), o, 2);
    } else {
      BuildCellsLookup(DatabaseDecls(), o, 3);
    }
  }

  /** The four cells the database registry of the example starts with. */
  lemma DatabaseCells(o: Overrides)
    requires DatabaseOverrides(o)
    ensures BuildCells(DatabaseDecls(), o).Success?
    ensures var m := BuildCells(DatabaseDecls(), o).value;
      && MaxRowsPerRowgroup in m && StrideSize in m && SharedFsType in m && CacheMemSz in m
      && m[MaxRowsPerRowgroup] == IntReadOnly("MAX_ROWS_PER_ROWGROUP", "Maximum number of rows per row group.", Int32, 512)
      && m[StrideSize] == IntReadOnly("STRIDE_SIZE", "Maximum stride size of a table", Int16, 512)
      && m[SharedFsType] == StrReadOnly("SHARED_FS", "The file system type", "alluxio")
      && m[CacheMemSz] == IntUpdatable("CACHE_MEM_SZ", "Memory size of cache", Int64, 0)
  {
    DatabaseMaxRows(o);
    DatabaseDefault(o, 1);
    DatabaseDefault(o, 2);
    DatabaseDefault(o, 3);
  }

  /** The cluster parameters without an override keep their defaults. */
  lemma ClusterDefault(o: Overrides, i: nat)
    requires ClusterOverrides(o) && i < 3
    ensures BuildCells(ClusterDecls(), o).Success?
    ensures var m := BuildCells(ClusterDecls(), o).value;
      ClusterDecls()[i].0 in m && m[ClusterDecls()[i].0] == ClusterDecls()[i].1.Default()
  {
    ClusterDeclsValid();
    ClusterBuilds(o);
    BuildCellsLookup(ClusterDecls(), o, i);
  }

  /**
    The reads of the database registry before its one update:
    MAX_ROWS_PER_ROWGROUP shows its override, STRIDE_SIZE its default as
    a string and as `int` and `int64_t`, SHARED_FS its text.
  */
  method DatabaseReads(db: ConfigTemplate<DatabaseConfigParm>)
    returns (maxRows: Result<Value, CfgError>, stride: Result<Value, CfgError>,
             sharedFs: Result<Value, CfgError>, strideInt: Result<Value, CfgError>,
             strideInt64: Result<Value, CfgError>)
    requires db.Valid() && MaxRowsPerRowgroup in db.parms && StrideSize in db.parms && SharedFsType in db.parms
    requires db.parms[MaxRowsPerRowgroup] == IntReadOnly("MAX_ROWS_PER_ROWGROUP", "Maximum number of rows per row group.", Int32, 512)
    requires db.parms[StrideSize] == IntReadOnly("STRIDE_SIZE", "Maximum stride size of a table", Int16, 512)
    requires db.parms[SharedFsType] == StrReadOnly("SHARED_FS", "The file system type", "alluxio")
    ensures maxRows == Success(StrVal("512")) && stride == Success(StrVal("512"))
    ensures sharedFs == Success(StrVal("alluxio"))
    ensures strideInt == Success(IntVal(512)) && strideInt64 == Success(IntVal(512))
  {
    assert Decimal(512) == "512";
    maxRows := db.As(MaxRowsPerRowgroup, StringType);
    stride := db.As(StrideSize, StringType);
    sharedFs := db.As(SharedFsType, StringType);
    ConvertToIntType(db.parms[StrideSize], Int32, 512, 512);
    ConvertToIntType(db.parms[StrideSize], Int64, 512, 512);
    strideInt := db.As(StrideSize, IntType(Int32));
    strideInt64 := db.As(StrideSize, IntType(Int64));
  }

  /**
    The update of CACHE_MEM_SZ, the one updatable parameter, to the
    rendering of 4096 * 1000, and its reads: as `uint64_t` the new value,
    as `uint8_t` only its low eight bits, which are 0.
  */
  method CacheUpdate(db: ConfigTemplate<DatabaseConfigParm>)
    returns (cacheSet: Outcome<CfgError>, cacheMem: Result<Value, CfgError>, cacheMemByte: Result<Value, CfgError>)
    requires db.Valid() && CacheMemSz in db.parms
    requires db.parms[CacheMemSz] == IntUpdatable("CACHE_MEM_SZ", "Memory size of cache", Int64, 0)
    modifies db
    ensures cacheSet == Pass
    ensures cacheMem == Success(IntVal(4096000)) && cacheMemByte == Success(IntVal(0))
  {
    SetDecimalRoundTrip(db.parms[CacheMemSz], 4096 * 1000);
    cacheSet := db.Set(CacheMemSz, Decimal(4096 * 1000));
    var cache := db.parms[CacheMemSz];
    assert cache == IntUpdatable("CACHE_MEM_SZ", "Memory size of cache", Int64, 4096000);
    assert cache.AsInt() == Success(4096000);
    ConvertToIntType(cache, UInt64, 4096000, 4096000);
    MultipleNarrowsToZero(16000, UInt8);
    assert 16000 * Modulus(UInt8.width) == 4096000;
    cacheMem := db.As(CacheMemSz, IntType(UInt64));
    cacheMemByte := db.As(CacheMemSz, IntType(UInt8));
  }

  /** The database half of the example's `main`. */
  method DatabaseExample(o: Overrides)
    returns (maxRows: Result<Value, CfgError>, stride: Result<Value, CfgError>,
             sharedFs: Result<Value, CfgError>, strideInt: Result<Value, CfgError>,
             strideInt64: Result<Value, CfgError>, cacheSet: Outcome<CfgError>,
             cacheMem: Result<Value, CfgError>, cacheMemByte: Result<Value, CfgError>)
    requires DatabaseOverrides(o)
    ensures maxRows == Success(StrVal("512")) && stride == Success(StrVal("512"))
    ensures sharedFs == Success(StrVal("alluxio"))
    ensures strideInt == Success(IntVal(512)) && strideInt64 == Success(IntVal(512))
    ensures cacheSet == Pass
    ensures cacheMem == Success(IntVal(4096000)) && cacheMemByte == Success(IntVal(0))
  {
    DatabaseDeclsValid();
    DatabaseCells(o);
    var r := ConfigTemplate<DatabaseConfigParm>.Create(DatabaseDecls(), o);
    var db := r.value;
    maxRows, stride, sharedFs, strideInt, strideInt64 := DatabaseReads(db);
    cacheSet, cacheMem, cacheMemByte := CacheUpdate(db);
  }

  /** The four cells the cluster registry of the example starts with. */
  lemma ClusterCells(o: Overrides)
    requires ClusterOverrides(o)
    ensures BuildCells(ClusterDecls(), o).Success?
    ensures var m := BuildCells(ClusterDecls(), o).value;
      && NumNodes in m && ZkTimeout in m && QuorumWrite in m && InsertFlush in m
      && m[NumNodes] == IntReadOnly("NUM_NODES", "Number of nodes in the cluster.", Int8, 3)
      && m[ZkTimeout] == IntReadOnly("ZK_TIMEOUT", "Zookeeper timeout in milliseconds", Int64, 10000)
      && m[QuorumWrite] == StrReadOnly("QUORUM_WRITE", "Is quorum write set", "true")
      && m[InsertFlush] == BoolReadOnly("INSERT_FLUSH", "Does each insert flush?", false)
  {
    ClusterInsertFlush(o);
    ClusterDefault(o, 0);
    ClusterDefault(o, 1);
    ClusterDefault(o, 2);
  }

  /**
    The cluster half of the example's `main`: INSERT_FLUSH reads false from
    its override, QUORUM_WRITE's text "true" reads as true, and NUM_NODES
    reads 3 as every type asked for.
  */
  method ClusterExample(o: Overrides)
    returns (numNodes: Result<Value, CfgError>, zkTimeout: Result<Value, CfgError>,
             numNodesByte: Result<Value, CfgError>, quorumWrite: Result<Value, CfgError>,
             insertFlush: Result<Value, CfgError>, numNodesWide: Result<Value, CfgError>)
    requires ClusterOverrides(o)
    ensures numNodes == Success(StrVal("3")) && zkTimeout == Success(StrVal("10000"))
    ensures numNodesByte == Success(IntVal(3)) && numNodesWide == Success(IntVal(3))
    ensures quorumWrite == Success(BoolVal(true)) && insertFlush == Success(BoolVal(false))
  {
    ClusterDeclsValid();
    ClusterCells(o);
    var r := ConfigTemplate<ClusterConfigParm>.Create(ClusterDecls(), o);
    var cl := r.value;
    assert Decimal(3) == "3" && Decimal(10000) == "10000";
    assert Upper("true") == "TRUE";
    numNodes := cl.As(NumNodes, StringType);
    zkTimeout := cl.As(ZkTimeout, StringType);
    ConvertToIntType(cl.parms[NumNodes], UInt8, 3, 3);
    ConvertToIntType(cl.parms[NumNodes], UInt64, 3, 3);
    numNodesByte := cl.As(NumNodes, IntType(UInt8));
    quorumWrite := cl.As(QuorumWrite, BoolType);
    insertFlush := cl.As(InsertFlush, BoolType);
    numNodesWide := cl.As(NumNodes, IntType(UInt64));
  }

  /** The overrides the example's `main` passes meet the descriptions above. */
  lemma DatabaseExampleOverrides()
    ensures DatabaseOverrides(map["MAX_ROWS_PER_ROWGROUP" := "512"])
  {
    var o := map["MAX_ROWS_PER_ROWGROUP" := "512"];
    assert o.Keys == {"MAX_ROWS_PER_ROWGROUP"};
    assert o["MAX_ROWS_PER_ROWGROUP"] == "512";
    StoiOf512();
  }

  lemma ClusterExampleOverrides()
    ensures ClusterOverrides(map["INSERT_FLUSH" := "false"])
  {
  }
}

=== FILE: factory.dfy ===
/**
  The value factory: picks each parameter's initial value from its
  hard-coded default or, when the override map has an entry under the
  parameter's key, from that entry's text, and builds the cell.
*/
module Factory {
  import opened Wrappers
  import opened Narrowing
  import opened StrConv
  import opened ConfigValue

  /** The overrides handed to the registry: parameter key to text. */
  type Overrides = map<string, string>

  /**
    `resolveVal` for an integer type: the default when the key has no
    override, otherwise `std::stoi` of the override converted to `kind`.
  */
  function ResolveInt(overrides: Overrides, key: string, def: int, kind: IntKind): (r: Result<int, CfgError>)
    requires InRange(kind, def)
    ensures r.Success? ==> InRange(kind, r.value)
    ensures key !in overrides ==> r == Success(def)
    ensures key in overrides ==> (r.Success? <==> Stoi(overrides[key]).Success?)
    ensures key in overrides && r.Failure? ==> r.error == ParseError(Stoi(overrides[key]).error)
    ensures key in overrides && r.Success? ==> Congruent(r.value, Stoi(overrides[key]).value, Modulus(kind.width))
  {
    if key !in overrides then
      Success(def)
    else
      var x :- ParseInt(overrides[key]);
      Success(Narrow(x, kind))
  }

  /** `resolveVal` for a string: the override text verbatim, or the default. */
  function ResolveStr(overrides: Overrides, key: string, def: string): (r: string)
    ensures key in overrides ==> r == overrides[key]
    ensures key !in overrides ==> r == def
  {
    if key in overrides then overrides[key] else def
  }

  /** `resolveVal` for a boolean: `strToBool` of the override, or the default. */
  function ResolveBool(overrides: Overrides, key: string, def: bool): (r: bool)
    ensures key in overrides ==> r == StrToBool(overrides[key])
    ensures key !in overrides ==> r == def
  {
    if key in overrides then StrToBool(overrides[key]) else def
  }

  /**
    An integer override that is the rendering of a value of the
    parameter's type (within the range of `int`) resolves to that value.
  */
  lemma ResolveIntOfDecimal(overrides: Overrides, key: string, def: int, kind: IntKind, x: int)
    requires InRange(kind, def) && InRange(kind, x) && InRange(Int32, x)
    requires key in overrides && overrides[key] == Decimal(x)
    ensures ResolveInt(overrides, key, def, kind) == Success(x)
  {
    StoiOfRendering(x);
    assert Stoi(overrides[key]) == Success(x);
    assert Narrow(x, kind) == x;
  }

  /**
    A boolean override resolves to false exactly when it is "0", or
    "false" or "off" in any mixture of cases; every other override,
    including the empty text, resolves to true.
  */
  lemma ResolveBoolOverride(overrides: Overrides, key: string, def: bool)
    requires key in overrides
    ensures var t := overrides[key];
      !ResolveBool(overrides, key, def) <==>
        t == "0" || SpellsIgnoringCase(t, "FALSE") || SpellsIgnoringCase(t, "OFF")
  {
    StrToBoolFalseIff(overrides[key]);
  }

  /** What the template declares for one parameter: which `Make_*` builder, key, default and help text. */
  datatype Decl =
    | IntReadOnlyDecl(key: string, kind: IntKind, def: int, help: string)
    | IntUpdatableDecl(key: string, kind: IntKind, def: int, help: string)
    | StrReadOnlyDecl(key: string, text: string, help: string)
    | BoolReadOnlyDecl(key: string, flag: bool, help: string)
  {
    /** An integer default is a value of the declared integer type. */
    predicate Valid()
    {
      (IntReadOnlyDecl? || IntUpdatableDecl?) ==> InRange(kind, def)
    }

    /** The cell that holds the hard-coded default. */
    function Default(): (c: Cell)
      requires Valid()
      ensures c.Valid() && c.key == key && c.help == help
    {
      match this
      case IntReadOnlyDecl(key, kind, def, help) => IntReadOnly(key, help, kind, def)
      case IntUpdatableDecl(key, kind, def, help) => IntUpdatable(key, help, kind, def)
      case StrReadOnlyDecl(key, text, help) => StrReadOnly(key, help, text)
      case BoolReadOnlyDecl(key, flag, help) => BoolReadOnly(key, help, flag)
    }
  }

  /** `Make_IntReadOnlyCV<kind>(key, def, help)`. */
  function MakeIntReadOnly(overrides: Overrides, key: string, kind: IntKind, def: int, help: string): (r: Result<Cell, CfgError>)
    requires InRange(kind, def)
    ensures r.Success? ==> r.value.IntReadOnly? && r.value.Valid() && r.value.key == key && r.value.help == help && r.value.kind == kind
    ensures r.Success? <==> ResolveInt(overrides, key, def, kind).Success?
    ensures r.Success? ==> r.value.n == ResolveInt(overrides, key, def, kind).value
    ensures r.Failure? ==> r.error == ResolveInt(overrides, key, def, kind).error
  {
    match ResolveInt(overrides, key, def, kind)
    case Success(x) => Success(IntReadOnly(key, help, kind, x))
    case Failure(e) => Failure(e)
  }

  /** `Make_IntUpdatableCV<kind>(key, def, help)`. */
  function MakeIntUpdatable(overrides: Overrides, key: string, kind: IntKind, def: int, help: string): (r: Result<Cell, CfgError>)
    requires InRange(kind, def)
    ensures r.Success? ==> r.value.IntUpdatable? && r.value.Valid() && r.value.key == key && r.value.help == help && r.value.kind == kind
    ensures r.Success? <==> ResolveInt(overrides, key, def, kind).Success?
    ensures r.Success? ==> r.value.n == ResolveInt(overrides, key, def, kind).value
    ensures r.Failure? ==> r.error == ResolveInt(overrides, key, def, kind).error
  {
    match ResolveInt(overrides, key, def, kind)
    case Success(x) => Success(IntUpdatable(key, help, kind, x))
    case Failure(e) => Failure(e)
  }

  /** `Make_StrReadOnlyCV(key, def, help)`: never fails. */
  function MakeStrReadOnly(overrides: Overrides, key: string, def: string, help: string): (c: Cell)
    ensures c.StrReadOnly? && c.key == key && c.help == help
    ensures c.AsStr() == if key in overrides then overrides[key] else def
  {
    StrReadOnly(key, help, ResolveStr(overrides, key, def))
  }

  /** `Make_BoolReadOnlyCV(key, def, help)`: never fails. */
  function MakeBoolReadOnly(overrides: Overrides, key: string, def: bool, help: string): (c: Cell)
    ensures c.BoolReadOnly? && c.key == key && c.help == help
    ensures c.AsBool() == if key in overrides then StrToBool(overrides[key]) else def
  {
    BoolReadOnly(key, help, ResolveBool(overrides, key, def))
  }

  /**
    Builds the cell a declaration asks for. Without an override for its
    key the cell holds the declared default as it is; with one, only an
    integer override can fail to parse.
  */
  function Make(overrides: Overrides, d: Decl): (r: Result<Cell, CfgError>)
    requires d.Valid()
    ensures r.Success? ==> r.value.Valid() && r.value.key == d.key && r.value.help == d.help
    ensures d.key !in overrides ==> r == Success(d.Default())
    ensures r.Failure? ==>
              && (d.IntReadOnlyDecl? || d.IntUpdatableDecl?)
              && d.key in overrides
              && Stoi(overrides[d.key]).Failure?
              && r.error == ParseError(Stoi(overrides[d.key]).error)
    ensures (d.IntReadOnlyDecl? || d.IntUpdatableDecl?) && d.key in overrides ==>
              (r.Success? <==> Stoi(overrides[d.key]).Success?)
  {
    match d
    case IntReadOnlyDecl(key, kind, def, help) => MakeIntReadOnly(overrides, key, kind, def, help)
    case IntUpdatableDecl(key, kind, def, help) => MakeIntUpdatable(overrides, key, kind, def, help)
    case StrReadOnlyDecl(key, text, help) => Success(MakeStrReadOnly(overrides, key, text, help))
    case BoolReadOnlyDecl(key, flag, help) => Success(MakeBoolReadOnly(overrides, key, flag, help))
  }

  /**
    With an override for its key, a declaration's cell starts from the
    override rather than the default: the text verbatim, `strToBool` of
    it, or `std::stoi` of it converted to the declared integer type.
  */
  lemma MakeWithOverride(overrides: Overrides, d: Decl)
    requires d.Valid() && d.key in overrides
    ensures d.StrReadOnlyDecl? ==> Make(overrides, d) == Success(StrReadOnly(d.key, d.help, overrides[d.key]))
    ensures d.BoolReadOnlyDecl? ==>
              Make(overrides, d) == Success(BoolReadOnly(d.key, d.help, StrToBool(overrides[d.key])))
    ensures (d.IntReadOnlyDecl? || d.IntUpdatableDecl?) && Make(overrides, d).Success? ==>
              var c := Make(overrides, d).value;
              && (if d.IntReadOnlyDecl? then c.IntReadOnly? else c.IntUpdatable?)
              && c.kind == d.kind
              && Congruent(c.n, Stoi(overrides[d.key]).value, Modulus(d.kind.width))
  {
    if d.IntReadOnlyDecl? || d.IntUpdatableDecl? {
      var x := ResolveInt(overrides, d.key, d.def, d.kind);
      if x.Success? {
        assert Make(overrides, d).value.n == x.value;
      }
    }
  }
}

=== FILE: narrowing.dfy ===
/**
  Fixed-width integer types and the conversion between them.

  A C++ integer conversion to a destination type of width N produces the
  unique value of the destination type that is congruent to the source
  value modulo 2^N ([conv.integral], section 7.3.9 of ISO/IEC 14882:2020). `Narrow` is that
  conversion; its contract is the definition from the standard, and
  `NarrowUnique` shows that the contract pins the result down.
*/
module Narrowing {

  datatype Width = W8 | W16 | W32 | W64

  /** An integer type of the host: its width and signedness (int8_t ... uint64_t). */
  datatype IntKind = IntKind(width: Width, signed: bool)

  const Int8 := IntKind(W8, true)
  const Int16 := IntKind(W16, true)
  const Int32 := IntKind(W32, true)
  const Int64 := IntKind(W64, true)
  const UInt8 := IntKind(W8, false)
  const UInt16 := IntKind(W16, false)
  const UInt32 := IntKind(W32, false)
  const UInt64 := IntKind(W64, false)

  /** 2^N for a width of N bits. */
  function Modulus(w: Width): nat
  {
    match w
    case W8 => 0x100
    case W16 => 0x1_0000
    case W32 => 0x1_0000_0000
    case W64 => 0x1_0000_0000_0000_0000
  }

  /** 2^(N-1): the first value of width N that a signed type cannot hold. */
  function HalfModulus(w: Width): (h: nat)
    ensures Modulus(w) == 2 * h
  {
    match w
    case W8 => 0x80
    case W16 => 0x8000
    case W32 => 0x8000_0000
    case W64 => 0x8000_0000_0000_0000
  }

  function MinValue(k: IntKind): int
  {
    if k.signed then 0 - HalfModulus(k.width) else 0
  }

  function MaxValue(k: IntKind): int
  {
    if k.signed then HalfModulus(k.width) - 1 else Modulus(k.width) - 1
  }

  /** `x` is a value of the type `k`. */
  predicate InRange(k: IntKind, x: int)
  {
    MinValue(k) <= x <= MaxValue(k)
  }

  /** `x` and `y` are congruent modulo `m`. */
  predicate Congruent(x: int, y: int, m: nat)
    requires m > 0
  {
    x % m == y % m
  }

  /** `static_cast<k>(x)`: two's-complement truncation to the width of `k`, without a range check. */
  function Narrow(x: int, k: IntKind): (r: int)
    ensures InRange(k, r)
    ensures Congruent(r, x, Modulus(k.width))
    ensures InRange(k, x) ==> r == x
  {
    var m := Modulus(k.width);
    var low := x % m;
    if k.signed && low >= HalfModulus(k.width) then low - m else low
  }

  /** The conversion's result is the only value of `k` congruent to `x`. */
  lemma NarrowUnique(x: int, y: int, k: IntKind)
    requires InRange(k, y) && Congruent(y, x, Modulus(k.width))
    ensures y == Narrow(x, k)
  {
    var m := Modulus(k.width);
    var r := Narrow(x, k);
    assert r % m == y % m;
    if y >= 0 {
      assert y % m == y;
    } else {
      assert y % m == y + m;
    }
    if r >= 0 {
      assert r % m == r;
    } else {
      assert r % m == r + m;
    }
  }

  /** A non-negative multiple of the modulus converts to 0 in every type of that width. */
  lemma {:induction false} MultipleNarrowsToZero(q: nat, k: IntKind)
    ensures Narrow(q * Modulus(k.width), k) == 0
  {
    var m := Modulus(k.width);
    if q > 0 {
      MultipleNarrowsToZero(q - 1, k);
      assert q * m == (q - 1) * m + m;
    }
  }

  /**
    Converting first to `k` and then to a type of the same width whose
    range includes `x` gives back `x`: a signed 64-bit value stored
    in a `uint64_t` reads back unchanged as `int64_t`.
  */
  lemma {:induction false} NarrowRoundTrip(x: int, k: IntKind, back: IntKind)
    requires InRange(back, x)
    requires Modulus(back.width) == Modulus(k.width)
    ensures Narrow(Narrow(x, k), back) == x
  {
    var m := Modulus(k.width);
    var y := Narrow(x, k);
    assert Congruent(Narrow(y, back), y, m);
    assert Congruent(y, x, m);
    NarrowUnique(y, x, back);
  }
}

=== FILE: registry.dfy ===
/**
  The registry `ConfigTemplate<TConfigEnum>`: one cell per parameter of an
  enumeration, a typed getter that coerces the cell's value to the type
  the caller asks for, and a setter that hands the new text to the cell.
*/
module Registry {
  import opened Wrappers
  import opened Narrowing
  import opened StrConv
  import opened ConfigValue
  import opened Factory

  /** The types `as_<T>` supports: `std::string`, `bool`, and any integer type. */
  datatype Target = StringType | BoolType | IntType(kind: IntKind)

  /** A value of one of those types. */
  datatype Value = StrVal(s: string) | BoolVal(b: bool) | IntVal(n: int)

  /**
    `convertToType`: the string or boolean projection, or the integer
    projection converted to the requested integer type, which keeps its
    low-order bits and never checks the range.
  */
  function ConvertToType(c: Cell, t: Target): (r: Result<Value, CfgError>)
    requires c.Valid()
    ensures t == StringType ==> r == Success(StrVal(c.AsStr()))
    ensures t == BoolType ==> r == Success(BoolVal(c.AsBool()))
    ensures t.IntType? ==> (r.Success? <==> c.AsInt().Success?)
    ensures t.IntType? && r.Failure? ==> r == Failure(c.AsInt().error)
    ensures t.IntType? && r.Success? ==>
              && r.value.IntVal?
              && InRange(t.kind, r.value.n)
              && Congruent(r.value.n, c.AsInt().value, Modulus(t.kind.width))
  {
    match t
    case StringType => Success(StrVal(c.AsStr()))
    case BoolType => Success(BoolVal(c.AsBool()))
    case IntType(kind) =>
      match c.AsInt()
      case Success(x) => Success(IntVal(Narrow(x, kind)))
      case Failure(e) => Failure(e)
  }

  /**
    Reading an integer parameter as an integer type keeps its value when
    the value fits that type, and otherwise gives the one value of the
    type that agrees with it in the low-order bits.
  */
  lemma ConvertToIntType(c: Cell, kind: IntKind, x: int, y: int)
    requires c.Valid() && c.AsInt() == Success(x)
    requires InRange(kind, y) && Congruent(y, x, Modulus(kind.width))
    ensures ConvertToType(c, IntType(kind)) == Success(IntVal(y))
    ensures InRange(kind, x) ==> y == x
  {
    NarrowUnique(x, y, kind);
  }

  /** `decls[i]` is the first declaration for its parameter. */
  predicate FirstFor<K(==)>(decls: seq<(K, Decl)>, i: nat)
    requires i < |decls|
  {
    forall j :: 0 <= j < i ==> decls[j].0 != decls[i].0
  }

  /** `decls[i]` is the first declaration whose cell cannot be made, and it fails with `e`. */
  predicate FirstFailure<K>(decls: seq<(K, Decl)>, overrides: Overrides, i: nat, e: CfgError)
    requires AllValid(decls) && i < |decls|
  {
    && Make(overrides, decls[i].1) == Failure(e)
    && forall j :: 0 <= j < i ==> Make(overrides, decls[j].1).Success?
  }

  predicate AllValid<K>(decls: seq<(K, Decl)>)
  {
    forall i :: 0 <= i < |decls| ==> decls[i].1.Valid()
  }

  /**
    The cells of a registry, built from its template's declarations in
    order, as the member initialiser list of `ConfigTemplate`'s constructor
    does: the first declaration of a parameter wins, and the first
    override that does not parse makes the construction fail.
  */
  function BuildCells<K(==)>(decls: seq<(K, Decl)>, overrides: Overrides): (r: Result<map<K, Cell>, CfgError>)
    requires AllValid(decls)
    ensures r.Success? ==> forall p :: p in r.value ==> r.value[p].Valid()
  {
    if decls == [] then
      Success(map[])
    else
      var c :- Make(overrides, decls[0].1);
      var rest :- BuildCells(decls[1..], overrides);
      Success(rest[decls[0].0 := c])
  }

  /**
    The construction succeeds exactly when every declaration's cell can be
    made; it then has a cell for every declared parameter and no other,
    and otherwise fails with the error of the first declaration whose
    cell cannot be made.
  */
  lemma {:induction false} BuildCellsOutcome<K>(decls: seq<(K, Decl)>, overrides: Overrides)
    requires AllValid(decls)
    ensures var r := BuildCells(decls, overrides);
      && (r.Success? <==> forall i :: 0 <= i < |decls| ==> Make(overrides, decls[i].1).Success?)
      && (r.Success? ==> forall i :: 0 <= i < |decls| ==> decls[i].0 in r.value)
      && (r.Success? ==> forall k :: k in r.value ==> exists i :: 0 <= i < |decls| && decls[i].0 == k)
      && (r.Failure? ==> exists i :: 0 <= i < |decls| && FirstFailure(decls, overrides, i, r.error))
  {
    BuildCellsFailure(decls, overrides);
    if decls != [] {
      BuildCellsOutcome(decls[1..], overrides);
      var r := BuildCells(decls, overrides);
      var tail := BuildCells(decls[1..], overrides);
      assert forall i :: 0 < i < |decls| ==> decls[i] == decls[1..][i - 1];
      if r.Success? {
        forall k | k in r.value
          ensures exists i :: 0 <= i < |decls| && decls[i].0 == k
        {
          if k != decls[0].0 {
            var i :| 0 <= i < |decls| - 1 && decls[1..][i].0 == k;
            assert decls[i + 1].0 == k;
          }
        }
      }
    }
  }

  /** A failed construction fails with the error of the first declaration whose cell cannot be made. */
  lemma {:induction false} BuildCellsFailure<K>(decls: seq<(K, Decl)>, overrides: Overrides)
    requires AllValid(decls)
    ensures var r := BuildCells(decls, overrides);
      r.Failure? ==> exists i :: 0 <= i < |decls| && FirstFailure(decls, overrides, i, r.error)
  {
    var r := BuildCells(decls, overrides);
    if r.Failure? {
      if Make(overrides, decls[0].1).Failure? {
        assert FirstFailure(decls, overrides, 0, r.error);
      } else {
        assert AllValid(decls[1..]);
        BuildCellsFailure(decls[1..], overrides);
        var i :| 0 <= i < |decls| - 1 && FirstFailure(decls[1..], overrides, i, r.error);
        forall j | 0 <= j < i + 1
          ensures Make(overrides, decls[j].1).Success?
        {
          if j > 0 {
            assert decls[j] == decls[1..][j - 1];
          }
        }
        assert decls[i + 1] == decls[1..][i];
        assert FirstFailure(decls, overrides, i + 1, r.error);
      }
    }
  }

  /** When every declaration's cell can be made, so can the registry's. */
  lemma BuildCellsSucceeds<K>(decls: seq<(K, Decl)>, overrides: Overrides)
    requires AllValid(decls)
    requires forall i :: 0 <= i < |decls| ==> Make(overrides, decls[i].1).Success?
    ensures BuildCells(decls, overrides).Success?
  {
    BuildCellsOutcome(decls, overrides);
  }

  /** The cell a parameter gets is the one its first declaration makes. */
  lemma {:induction false} BuildCellsLookup<K>(decls: seq<(K, Decl)>, overrides: Overrides, i: nat)
    requires AllValid(decls) && i < |decls| && FirstFor(decls, i)
    requires BuildCells(decls, overrides).Success?
    ensures decls[i].0 in BuildCells(decls, overrides).value
    ensures Success(BuildCells(decls, overrides).value[decls[i].0]) == Make(overrides, decls[i].1)
  {
    if i > 0 {
      assert decls[1..][i - 1] == decls[i];
      BuildCellsLookup(decls[1..], overrides, i - 1);
    }
  }

  /**
    With no overrides the construction cannot fail, and every parameter
    holds the default its first declaration gives.
  */
  lemma DefaultsWithoutOverrides<K>(decls: seq<(K, Decl)>, i: nat)
    requires AllValid(decls) && i < |decls| && FirstFor(decls, i)
    ensures BuildCells(decls, map[]).Success?
    ensures decls[i].0 in BuildCells(decls, map[]).value
    ensures BuildCells(decls, map[]).value[decls[i].0] == decls[i].1.Default()
  {
    BuildCellsSucceeds(decls, map[]);
    BuildCellsLookup(decls, map[], i);
  }

  /**
    A parameter with an override starts from the override, not from its
    default: a string parameter holds the text verbatim, a boolean one
    `strToBool` of it, and an integer one the parsed value converted to
    its declared type, in its declared cell variant.
  */
  lemma OverrideWins<K>(decls: seq<(K, Decl)>, overrides: Overrides, i: nat)
    requires AllValid(decls) && i < |decls| && FirstFor(decls, i)
    requires BuildCells(decls, overrides).Success?
    requires decls[i].1.key in overrides
    ensures decls[i].0 in BuildCells(decls, overrides).value
    ensures var c := BuildCells(decls, overrides).value[decls[i].0];
      var text := overrides[decls[i].1.key];
      && (decls[i].1.StrReadOnlyDecl? ==> c.AsStr() == text)
      && (decls[i].1.BoolReadOnlyDecl? ==> c.AsBool() == StrToBool(text))
      && (decls[i].1.IntReadOnlyDecl? || decls[i].1.IntUpdatableDecl? ==>
            && (c.IntReadOnly? || c.IntUpdatable?)
            && Stoi(text).Success?
            && Congruent(c.n, Stoi(text).value, Modulus(decls[i].1.kind.width))
            && (decls[i].1.IntReadOnlyDecl? <==> c.IntReadOnly?)
            && c.kind == decls[i].1.kind
            && c.n == Narrow(Stoi(text).value, decls[i].1.kind))
  {
    BuildCellsLookup(decls, overrides, i);
    MakeWithOverride(overrides, decls[i].1);
  }

  /** `ConfigTemplate<K>`: the registry of one parameter enumeration `K`. */
  class ConfigTemplate<K(==)> {
    /** `mParms`: the cell of every parameter. */
    var parms: map<K, Cell>

    ghost predicate Valid()
      reads this
    {
      forall p :: p in parms ==> parms[p].Valid()
    }

    constructor (cells: map<K, Cell>)
      requires forall p :: p in cells ==> cells[p].Valid()
      ensures Valid() && parms == cells
    {
      parms := cells;
    }

    /**
      The constructor of a specialisation: builds one cell per declared
      parameter from the template and the overrides, or fails with the
      error the first unparsable override raises.
    */
    static method Create(decls: seq<(K, Decl)>, overrides: Overrides) returns (r: Result<ConfigTemplate<K>, CfgError>)
      requires AllValid(decls)
      ensures r.Success? <==> BuildCells(decls, overrides).Success?
      ensures r.Success? ==> fresh(r.value) && r.value.Valid() && r.value.parms == BuildCells(decls, overrides).value
      ensures r.Failure? ==> r.error == BuildCells(decls, overrides).error
    {
      match BuildCells(decls, overrides)
      case Success(cells) =>
        var registry := new ConfigTemplate(cells);
        r := Success(registry);
      case Failure(e) =>
        r := Failure(e);
    }

    /** `as_<T>(parm)`: the value of `parm` coerced to `t`. */
    function As(p: K, t: Target): (r: Result<Value, CfgError>)
      reads this
      requires Valid() && p in parms
      ensures t == StringType ==> r == Success(StrVal(parms[p].AsStr()))
      ensures t == BoolType ==> r == Success(BoolVal(parms[p].AsBool()))
      ensures t.IntType? ==> (r.Success? <==> parms[p].AsInt().Success?)
      ensures t.IntType? && r.Failure? ==> r == Failure(parms[p].AsInt().error)
      ensures t.IntType? && r.Success? ==>
                && r.value.IntVal?
                && InRange(t.kind, r.value.n)
                && Congruent(r.value.n, parms[p].AsInt().value, Modulus(t.kind.width))
    {
      ConvertToType(parms[p], t)
    }

    /**
      `set(parm, v)`: the cell of `parm` takes `v`, or throws. A read-only
      cell always throws, naming its key; the updatable integer cell throws
      when `v` does not parse. A failed set changes nothing; a successful
      one replaces only the cell of `parm`. Keys and help texts never change.
    */
    method Set(p: K, v: string) returns (r: Outcome<CfgError>)
      requires Valid() && p in parms
      modifies this
      ensures Valid() && parms.Keys == old(parms.Keys)
      ensures old(parms[p]).ReadOnly() ==> r == Fail(ReadOnlyError(old(parms[p]).key))
      ensures old(parms[p]).IntUpdatable? ==> (r.Pass? <==> Stoi(v).Success?)
      ensures r.Fail? ==> parms == old(parms) && old(parms[p]).Set(v) == Failure(r.error)
      ensures r.Pass? ==> parms == old(parms)[p := old(parms[p]).Set(v).value]
      ensures forall q :: q in parms ==> parms[q].key == old(parms[q].key) && parms[q].help == old(parms[q].help)
      ensures forall q :: q in parms && q != p ==> parms[q] == old(parms[q])
    {
      match parms[p].Set(v)
      case Success(c) =>
        parms := parms[p := c];
        r := Pass;
      case Failure(e) =>
        r := Fail(e);
    }
  }
}

=== FILE: strconv.dfy ===
/**
  The text conversions the registry relies on: `strToBool`, the decimal
  rendering of `std::to_string`, and `std::stoi`, which follows `strtol`
  with base 10 (section 7.22.1.4 of ISO/IEC 9899:2011) and then requires
  the value to fit a 32-bit `int`.
*/
module StrConv {
  import opened Wrappers
  import opened Narrowing

  // ---------------------------------------------------------------------
  // Characters
  // ---------------------------------------------------------------------

  /** `isspace` in the "C" locale: space, and \t \n \v \f \r (codes 9 to 13). */
  predicate IsSpace(c: char)
  {
    c == ' ' || '\t' <= c <= '\r'
  }

  predicate IsDigit(c: char)
  {
    '0' <= c <= '9'
  }

  function DigitValue(c: char): (d: nat)
    requires IsDigit(c)
    ensures d < 10
  {
    (c as int - '0' as int) as nat
  }

  function DigitChar(d: nat): (c: char)
    requires d < 10
    ensures IsDigit(c) && DigitValue(c) == d
  {
    ('0' as int + d) as char
  }

  predicate AllDigits(s: string)
  {
    forall i :: 0 <= i < |s| ==> IsDigit(s[i])
  }

  // ---------------------------------------------------------------------
  // strToBool
  // ---------------------------------------------------------------------

  /** `::toupper` restricted to ASCII: 'a'..'z' become 'A'..'Z', every other character is kept. */
  function UpperChar(c: char): char
  {
    if 'a' <= c <= 'z' then (c as int - 32) as char else c
  }

  /** The upper-cased copy that `std::transform(..., ::toupper)` produces. */
  function Upper(s: string): (u: string)
    ensures |u| == |s|
    ensures forall i :: 0 <= i < |s| ==> u[i] == UpperChar(s[i])
  {
    if s == [] then [] else [UpperChar(s[0])] + Upper(s[1..])
  }

  /** `strToBool`: false exactly for "0", "FALSE" and "OFF" after upper-casing; true for every other text. */
  function StrToBool(s: string): bool
  {
    var up := Upper(s);
    !(up == "0" || up == "FALSE" || up == "OFF")
  }

  /** 'A'..'Z' to 'a'..'z'; used only by the reference definition below. */
  function LowerChar(c: char): char
  {
    if 'A' <= c <= 'Z' then (c as int + 32) as char else c
  }

  /**
    `s` spells `word` (written in capitals and digits) with each letter in
    either case: the reference definition of a case-insensitive match.
  */
  predicate SpellsIgnoringCase(s: string, word: string)
  {
    |s| == |word| && forall i :: 0 <= i < |s| ==> s[i] == word[i] || s[i] == LowerChar(word[i])
  }

  lemma UpperCharIs(c: char, w: char)
    requires 'A' <= w <= 'Z' || IsDigit(w)
    ensures UpperChar(c) == w <==> c == w || c == LowerChar(w)
  {
  }

  lemma {:induction false} UpperIsWord(s: string, word: string)
    requires forall i :: 0 <= i < |word| ==> 'A' <= word[i] <= 'Z' || IsDigit(word[i])
    ensures Upper(s) == word <==> SpellsIgnoringCase(s, word)
  {
    if |s| == |word| {
      if Upper(s) == word {
        forall i | 0 <= i < |s| ensures s[i] == word[i] || s[i] == LowerChar(word[i]) {
          UpperCharIs(s[i], word[i]);
        }
      }
      if SpellsIgnoringCase(s, word) {
        forall i | 0 <= i < |s| ensures Upper(s)[i] == word[i] {
          UpperCharIs(s[i], word[i]);
        }
      }
    }
  }

  /**
    The boolean text rule, both directions: a text reads as false exactly
    when it is "0", or "false" or "off" in any mixture of cases.
  */
  lemma StrToBoolFalseIff(s: string)
    ensures !StrToBool(s) <==> s == "0" || SpellsIgnoringCase(s, "FALSE") || SpellsIgnoringCase(s, "OFF")
  {
    UpperIsWord(s, "0");
    UpperIsWord(s, "FALSE");
    UpperIsWord(s, "OFF");
    assert SpellsIgnoringCase(s, "0") <==> s == "0";
  }

  // ---------------------------------------------------------------------
  // std::to_string for integers
  // ---------------------------------------------------------------------

  /** The decimal digits of `n`, most significant first, without leading zeros. */
  function NatDigits(n: nat): (s: string)
    ensures s != [] && AllDigits(s)
    ensures n >= 10 ==> |s| >= 2
    ensures s[0] == '0' <==> n == 0
    ensures s[0] == '0' ==> s == "0"
  {
    if n < 10 then [DigitChar(n)] else NatDigits(n / 10) + [DigitChar(n % 10)]
  }

  /** `std::to_string(n)`: an optional '-' followed by the digits of |n|. */
  function Decimal(n: int): (r: string)
    ensures r != [] && (r[0] == '-' <==> n < 0)
    ensures n < 0 ==> AllDigits(r[1..])
    ensures n >= 0 ==> AllDigits(r)
    ensures n >= 0 ==> (r[0] == '0' ==> r == "0")
    ensures n < 0 ==> |r| >= 2 && r[1] != '0'
  {
    if n < 0 then "-" + NatDigits(-n) else NatDigits(n)
  }

  // ---------------------------------------------------------------------
  // std::stoi
  // ---------------------------------------------------------------------

  /** Why `std::stoi` throws: no digits to convert (`std::invalid_argument`) or a value outside `int` (`std::out_of_range`). */
  datatype ParseFailure = InvalidArgument | OutOfRange

  predicate AllSpaces(w: string)
  {
    forall i :: 0 <= i < |w| ==> IsSpace(w[i])
  }

  /** What is left after the leading white space. */
  function SkipSpaces(s: string): (t: string)
    ensures |t| <= |s| && t == s[|s| - |t|..]
    ensures t == [] || !IsSpace(t[0])
  {
    if s != [] && IsSpace(s[0]) then SkipSpaces(s[1..]) else s
  }

  /**
    `SkipSpaces` drops exactly the leading white space: what it drops is
    all white space, and what it keeps does not start with any.
  */
  lemma SkipSpacesDropsSpaces(s: string)
    ensures var t := SkipSpaces(s);
      && s == s[..|s| - |t|] + t
      && AllSpaces(s[..|s| - |t|])
      && (t == [] || !IsSpace(t[0]))
  {
    var k := |s| - |SkipSpaces(s)|;
    assert s == s[..k] + s[k..];
    LeadingSpaces(s);
    assert forall i :: 0 <= i < k ==> s[..k][i] == s[i];
  }

  /** Every character before the point where `SkipSpaces` stops is white space. */
  lemma {:induction false} LeadingSpaces(s: string)
    ensures forall i :: 0 <= i < |s| - |SkipSpaces(s)| ==> IsSpace(s[i])
  {
    if s != [] && IsSpace(s[0]) {
      LeadingSpaces(s[1..]);
      forall i | 0 < i < |s| - |SkipSpaces(s)|
        ensures IsSpace(s[i])
      {
        assert s[i] == s[1..][i - 1];
      }
    }
  }

  /** The longest prefix of `s` made of decimal digits. */
  function DigitPrefix(s: string): (d: string)
    ensures |d| <= |s| && d == s[..|d|]
    ensures AllDigits(d)
    ensures |d| < |s| ==> !IsDigit(s[|d|])
  {
    if s != [] && IsDigit(s[0]) then [s[0]] + DigitPrefix(s[1..]) else []
  }

  /** The number a string of decimal digits denotes. */
  function DigitsValue(ds: string): nat
    requires AllDigits(ds)
  {
    if ds == [] then 0 else 10 * DigitsValue(ds[..|ds| - 1]) + DigitValue(ds[|ds| - 1])
  }

  /** The text after an optional leading sign. */
  function Unsigned(t: string): string
  {
    if t != [] && (t[0] == '-' || t[0] == '+') then t[1..] else t
  }

  /**
    `std::stoi(s)`: white space is skipped, an optional sign and the
    longest run of digits after it are read, and anything after the
    digits is ignored.
  */
  function Stoi(s: string): (r: Result<int, ParseFailure>)
    ensures r.Success? ==> InRange(Int32, r.value)
  {
    ReadInt(SkipSpaces(s))
  }

  /** `std::stoi` on a text whose leading white space is already skipped. */
  function ReadInt(t: string): (r: Result<int, ParseFailure>)
    ensures r.Success? ==> InRange(Int32, r.value)
  {
    var digits := DigitPrefix(Unsigned(t));
    if digits == [] then
      Failure(InvalidArgument)
    else
      var v := SignedValue(if t[0] == '-' then "-" else "", digits);
      if InRange(Int32, v) then Success(v) else Failure(OutOfRange)
  }

  lemma {:induction false} SkipSpacesPrefix(w: string, t: string)
    requires AllSpaces(w)
    requires t == [] || !IsSpace(t[0])
    ensures SkipSpaces(w + t) == t
  {
    if w != [] {
      assert (w + t)[1..] == w[1..] + t;
      SkipSpacesPrefix(w[1..], t);
    }
  }

  lemma {:induction false} DigitPrefixOf(ds: string, rest: string)
    requires AllDigits(ds)
    requires rest == [] || !IsDigit(rest[0])
    ensures DigitPrefix(ds + rest) == ds
  {
    if ds != [] {
      assert (ds + rest)[1..] == ds[1..] + rest;
      DigitPrefixOf(ds[1..], rest);
    }
  }

  /** The value `std::stoi` gives a sign followed by a run of digits. */
  function SignedValue(sign: string, ds: string): int
    requires AllDigits(ds)
  {
    var magnitude: int := DigitsValue(ds);
    if sign == "-" then -magnitude else magnitude
  }

  lemma {:induction false} ReadIntOfParts(sign: string, ds: string, rest: string)
    requires sign == "" || sign == "+" || sign == "-"
    requires ds != [] && AllDigits(ds)
    requires rest == [] || !IsDigit(rest[0])
    ensures var v := SignedValue(sign, ds);
      ReadInt(sign + (ds + rest)) == if InRange(Int32, v) then Success(v) else Failure(OutOfRange)
  {
    var t := sign + (ds + rest);
    assert t[0] == if sign == "" then ds[0] else sign[0];
    assert Unsigned(t) == ds + rest;
    DigitPrefixOf(ds, rest);
    assert SignedValue(if t[0] == '-' then "-" else "", ds) == SignedValue(sign, ds);
  }

  /**
    What `std::stoi` reads from white space, a sign, digits and a tail
    that does not continue the digits: the signed value of the digits,
    or `OutOfRange` when that value does not fit an `int`.
  */
  lemma {:induction false} StoiOfParts(w: string, sign: string, ds: string, rest: string)
    requires AllSpaces(w)
    requires sign == "" || sign == "+" || sign == "-"
    requires ds != [] && AllDigits(ds)
    requires rest == [] || !IsDigit(rest[0])
    ensures var v := SignedValue(sign, ds);
      Stoi(w + (sign + ds) + rest) == if InRange(Int32, v) then Success(v) else Failure(OutOfRange)
  {
    var t := sign + (ds + rest);
    assert w + (sign + ds) + rest == w + t;
    assert t[0] == if sign == "" then ds[0] else sign[0];
    SkipSpacesPrefix(w, t);
    ReadIntOfParts(sign, ds, rest);
  }

  /**
    `s` starts with an integer `std::stoi` can read: white space `w`, an
    optional sign, a run of digits `ds` and a tail `rest` that does not
    continue the digits.
  */
  predicate LeadingInt(s: string, w: string, sign: string, ds: string, rest: string)
  {
    && AllSpaces(w)
    && (sign == "" || sign == "+" || sign == "-")
    && ds != [] && AllDigits(ds)
    && (rest == [] || !IsDigit(rest[0]))
    && s == w + (sign + ds) + rest
  }

  /** A text that starts with an integer never gives `InvalidArgument`. */
  lemma StoiOfLeadingInt(s: string, w: string, sign: string, ds: string, rest: string)
    requires LeadingInt(s, w, sign, ds, rest)
    ensures Stoi(s) != Failure(InvalidArgument)
  {
    StoiOfParts(w, sign, ds, rest);
  }

  /** A text `std::stoi` does not reject as `InvalidArgument` starts with an integer. */
  lemma LeadingIntOfStoi(s: string) returns (w: string, sign: string, ds: string, rest: string)
    requires Stoi(s) != Failure(InvalidArgument)
    ensures LeadingInt(s, w, sign, ds, rest)
  {
    var t := SkipSpaces(s);
    SkipSpacesDropsSpaces(s);
    w := s[..|s| - |t|];
    sign, ds, rest := SignedDigitsOfReadInt(t);
    Reassociate(s, w, sign, ds, rest);
  }

  lemma Reassociate(s: string, w: string, sign: string, ds: string, rest: string)
    requires s == w + (sign + (ds + rest))
    ensures s == w + (sign + ds) + rest
  {
    assert sign + (ds + rest) == (sign + ds) + rest;
  }

  /** The sign, digits and tail `ReadInt` reads when it finds digits. */
  lemma SignedDigitsOfReadInt(t: string) returns (sign: string, ds: string, rest: string)
    requires ReadInt(t) != Failure(InvalidArgument)
    ensures sign == "" || sign == "+" || sign == "-"
    ensures ds != [] && AllDigits(ds)
    ensures rest == [] || !IsDigit(rest[0])
    ensures t == sign + (ds + rest)
  {
    var u := Unsigned(t);
    sign := if u == t then "" else [t[0]];
    assert t == sign + u;
    ds := DigitPrefix(u);
    rest := u[|ds|..];
    assert u == ds + rest;
  }

  /**
    `std::stoi` throws `std::invalid_argument` exactly when the text does
    not start with an integer: "abc1", "- 5", "+-1" and "x 12" all fail,
    and every text of the shape `StoiOfParts` reads gives a value or
    `OutOfRange`.
  */
  lemma StoiInvalidIff(s: string)
    ensures Stoi(s) != Failure(InvalidArgument) <==> exists w, sign, ds, rest :: LeadingInt(s, w, sign, ds, rest)
  {
    forall w, sign, ds, rest | LeadingInt(s, w, sign, ds, rest)
      ensures Stoi(s) != Failure(InvalidArgument)
    {
      StoiOfLeadingInt(s, w, sign, ds, rest);
    }
    if Stoi(s) != Failure(InvalidArgument) {
      var w, sign, ds, rest := LeadingIntOfStoi(s);
    }
  }

  /** A text without any digit has nothing `std::stoi` can convert. */
  lemma {:induction false} StoiNoDigits(s: string)
    requires forall i :: 0 <= i < |s| ==> !IsDigit(s[i])
    ensures Stoi(s) == Failure(InvalidArgument)
  {
    var t := SkipSpaces(s);
    var u := Unsigned(t);
    assert u != [] ==> u[0] in s;
  }

  lemma {:induction false} DigitsValueOfNatDigits(n: nat)
    ensures DigitsValue(NatDigits(n)) == n
  {
    var s := NatDigits(n);
    if n >= 10 {
      DigitsValueOfNatDigits(n / 10);
      assert s[..|s| - 1] == NatDigits(n / 10);
    }
  }

  /**
    The rendering of any integer, however wide, is a sign-free run of
    digits after its optional '-', and those digits denote the integer's
    magnitude.
  */
  lemma DecimalValue(n: int)
    ensures AllDigits(Unsigned(Decimal(n)))
    ensures DigitsValue(Unsigned(Decimal(n))) == if n < 0 then -n else n
  {
    DigitsValueOfNatDigits(if n < 0 then -n else n);
  }

  /**
    `std::stoi` reads back what `std::to_string` wrote, for every `int`,
    also behind leading white space and in front of a tail that is not a
    digit.
  */
  lemma {:induction false} StoiOfDecimal(w: string, n: int, rest: string)
    requires AllSpaces(w)
    requires rest == [] || !IsDigit(rest[0])
    ensures Stoi(w + Decimal(n) + rest) == if InRange(Int32, n) then Success(n) else Failure(OutOfRange)
  {
    var sign := if n < 0 then "-" else "";
    var m := if n < 0 then -n else n;
    assert Decimal(n) == sign + NatDigits(m);
    DigitsValueOfNatDigits(m);
    assert SignedValue(sign, NatDigits(m)) == n;
    StoiOfParts(w, sign, NatDigits(m), rest);
  }

  /** The plain round trip: `std::stoi(std::to_string(n)) == n` for every `int`. */
  lemma StoiOfRendering(n: int)
    requires InRange(Int32, n)
    ensures Stoi(Decimal(n)) == Success(n)
  {
    var d := Decimal(n);
    assert [] + d + [] == d;
    StoiOfDecimal([], n, []);
  }
}

=== FILE: wrappers.dfy ===
/** Failure-carrying results: the model's stand-in for C++ exceptions. */
module Wrappers {

  datatype Result<+R, +E> = Success(value: R) | Failure(error: E) {
    predicate IsFailure() { Failure? }

    function PropagateFailure<U>(): Result<U, E>
      requires Failure?
    {
      Failure(error)
    }

    function Extract(): R
      requires Success?
    {
      value
    }
  }

  /** The outcome of an operation that returns nothing but may fail (a `void` that may throw). */
  datatype Outcome<+E> = Pass | Fail(error: E)
}
